=== FILE: README.md ===
# Twitch clip archiver: filename resolution and duplicate detection

This project models the part of the clip archiver that decides where a
downloaded clip is stored and whether it is a re-download of a clip already
on disk. The repository holds two generations of this logic, and both are
modelled:

- `dl.py` (module `Dl`, properties in `DlProperties`) is the current version.
  A clip is filed as `basepath/MM-DD-YYYY/game/stem_i.mp4`:
  - the date is the Sunday that starts the week of the parent video's creation date;
  - `game` is the lowercased game name;
  - `stem` is the sanitised title.
  When index 0 is taken, the clip is downloaded to the first free index (the
  trial). The trial is removed again when its MD5 digest equals that of an
  earlier variant.
- `clip_dl.py` (module `ClipDl`) is the older version. It uses one flat
  directory. The first copy is stored at `stem.mp4` (the primary) and later
  copies at `stem_0.mp4`, `stem_1.mp4`, … A later copy is compared with the
  primary only.

Shared concepts each live in one module:
- `Text`: `str.format` of an int, `rfind`, `index`, `strip`, `lower`.
- `Calendar`: day ordinals, `weekday()`, the week bin and `strftime("%m-%d-%Y")`.
- `Naming`: the sanitised stem, `stem_i.mp4` names and their parser.
- `FileStore`: the filesystem and `is_duplicate`.
- `Probe`: the first free index and `iterate_filenames`.
- `Catalog`: clip records, the media URL, the helix response decision and slugs.
- `VodCache`: `vod_created_date` and its memo.

How the model represents the program:
- The filesystem is an immutable `map<string, Content>` keyed by full path. A
  download stores the fetched bytes at a path. Directories are implicit.
- The outside world is passed in as total functions in an `Env` datatype:
  - the vod creation-date lookup;
  - the catalog's successive answers to a clip query;
  - the bytes behind a media URL;
  - MD5.
  MD5 is uninterpreted. Equal contents give equal digests. Nothing assumes
  the digest is injective: "duplicate" always means "equal digest".
- Dates are Python day ordinals (`date.toordinal()`, 0001-01-01 is day 1, a
  Monday). The weekday is `(d + 6) % 7`.
- A Python exception that would end the run is a `Failure` of `Result`. A
  run (`DownloadClips`) returns the files and the memo reached and the error
  that stopped it, if any. The memo includes the vod of the clip that raised,
  because `vod_created_date` stores it before either exception
  (`DlProperties.DownloadClipsStopsAtFailure`).
- The clip list a run works on is an input. `get_top` and `get_by_slug` are
  not modelled: a run takes the list of clips they would return, and
  `Catalog.LinkSlugs` stops at the slugs read from a link file.

Where the code's evident intent and its letter differ, the model follows the
letter:
- `dl.py` compares the trial with `filenames[:-1]`, the fresh listing minus its
  last entry. That slice is evidently meant to drop the trial just written,
  leaving the variants that existed before it (indices below the trial). While
  the variants of a clip form a gap-free run `0 .. k-1` the two agree
  (`DlProperties.PriorVariantsOfContiguous`). When index `i + 1` exists but the
  first free index `i` does not, the trial is compared with itself and always
  removed, so a genuinely new clip is dropped
  (`DlProperties.TrialComparedWithItself`). `dl.py` itself only ever creates
  gap-free runs (`DlProperties.DownloadClipsPreservesContiguity`), so in its
  directories the gap has to come from outside, e.g. a file deleted by hand.
  `clip_dl.py` can leave gaps in its flat directory
  (`ClipDl.ProcessClipLeavesGap`: the primary of title "a 1" is copy slot 1 of
  title "a"). There this is harmless, because a copy is compared with the
  primary only.
- Only the ASCII space becomes `_`. Tabs and other whitespace are dropped
  like any other character outside `[A-Za-z0-9_]`.
- In `clip_dl.py` a primary of one title can be the first copy slot of
  another: "a 0" and "a" both use `a_0.mp4` (`ClipDl.PrimaryMeetsCopySlot`).
  In `dl.py` distinct (directory, stem, index) triples never share a path
  (`Naming.VariantPathsDistinct`).
- `full_name_for_clip(clip, i)` is `Naming.VariantPath` of the clip's location
  (its directory and sanitised stem) at index `i`. `Dl.Place` builds every
  name that way.
- The clip's `url` is only printed by `clip_dl.py` (clip_dl.py:101), so the
  clip record leaves it out.

## Model

| member | source | states |
|---|---|---|
| `Naming.Stem` | dl.py:84-86 | The stem holds only `[A-Za-z0-9_]` characters and so no `/`. |
| `Naming.StemAppend` | dl.py:84-86 | Sanitising works character by character, in order: the stem of `a + b` is the stem of `a` followed by the stem of `b`. |
| `Naming.StemOfChar` | dl.py:84-86 | A space becomes `_`, a word character is kept, and every other character (tab, non-ASCII letter, punctuation) is dropped. |
| `Naming.StemOfWords` | dl.py:84-86 | A title made only of `[A-Za-z0-9_]` characters is its own stem. |
| `Naming.StemIdempotent` | dl.py:84-86 | Sanitising a stem again leaves it unchanged. |
| `Naming.FileName` | dl.py:87 | `"{}_{}.mp4".format(stem, i)` of a stem without `/` holds no `/`, so it names a file directly inside its directory. |
| `Naming.FileNameRoundTrip` | dl.py:87 | Parsing `stem_i.mp4` gives back exactly the stem and the index. |
| `Naming.ParseFileNameSound` | dl.py:87 | Every name the parser accepts is `stem_i.mp4` for what it returns, so the naming is a bijection. |
| `Naming.FileNameInjective` | dl.py:87 | Two (stem, index) pairs give the same file name only when they are equal. |
| `Naming.VariantPath` | dl.py:89-90 | `full_name_for_clip`: the path starts with the clip's directory (followed by the file name). |
| `Naming.VariantPathInjective` | dl.py:89-90 | Within one directory and stem, different indices give different paths. |
| `Naming.VariantPathsDistinct` | dl.py:89-104 | With the directory ending in `/` and a sanitised stem, a full path determines the directory, the stem and the index. |
| `Text.Decimal` | dl.py:87 | `"{}".format(i)` is at least one digit long, all digits, and starts with `0` exactly when `i` is 0. |
| `Text.DecimalRoundTrip` | dl.py:87 | `"{}".format(i)` is a canonical numeral (no leading zero) whose value is `i`. |
| `Text.DecimalInjective` | dl.py:87 | Different indices are written differently. |
| `Text.LastIndexOf` | dl.py:144 | `rfind`: the result holds the character, no later position does, and -1 means it is absent. |
| `Text.IndexOf` | dl.py:41 | `index`: the first position where the pattern occurs, with no occurrence before it, or none at all. |
| `Text.LeadingSpace` | dl.py:144 | The leading run of whitespace ends at the first character that is not whitespace. |
| `Text.Strip` | dl.py:144 | `strip()`: the slice of the input that starts after its leading whitespace, is followed only by whitespace, and neither starts nor ends with whitespace. |
| `Text.Lower` | dl.py:100 | Position by position: an upper-case ASCII letter becomes its lower-case letter (code point + 32), and every other character is kept. |
| `Calendar.Weekday` | dl.py:97 | `weekday()` is 0..6; Monday (0) falls exactly on the ordinals `1 + 7k`, since 0001-01-01 was a Monday, and Sunday (6) exactly on the multiples of 7. |
| `Calendar.WeekShift` | dl.py:97 | The shift `(weekday()+1) % 7` is 0..6, lands on a Sunday, and is 0 exactly on a Sunday. |
| `Calendar.WeekStart` | dl.py:97 | The bin is a Sunday at most six days before the date. |
| `Calendar.WeekStartOfSunday` | dl.py:97 | A Sunday is its own bin. |
| `Calendar.WeekStartUnique` | dl.py:95-97 | The bin is the only Sunday `s` with `s <= d < s + 7`. |
| `Calendar.SameWeekSameBin` | dl.py:95-97 | Two dates share a bin exactly when the second lies in the first one's Sunday-start week. |
| `Calendar.BinDate` | dl.py:97 | The datetime subtraction fails (OverflowError) exactly for the six days before the first Sunday of year 1. |
| `Calendar.DateLabel` | dl.py:99-100 | The `%m-%d-%Y` label is two digits, `-`, two digits, `-`, then the year's digits; it contains no `/`, so it is one directory level. |
| `Calendar.CivilDate` | dl.py:99-100 | The month is 1..12 and the day of month 1..31 for every ordinal. |
| `Calendar.DayOfEra` | dl.py:99-100 | Every day of a 400-year era falls in one of its 400 years, at a day of year 0..365. |
| `Calendar.SentinelWeek` | dl.py:111 | 1980-01-01 is a Tuesday, its bin is 1979-12-30, labelled `12-30-1979`. |
| `VodCache.VodCreatedDate` | dl.py:106-116 | No vod: the 1980-01-01 sentinel, memo untouched, no lookup. Otherwise the vod is in the memo afterwards. A hit returns the stored date with no lookup. Existing entries are never changed. |
| `VodCache.VodCreatedDateConsistent` | dl.py:106-116 | With a memo that agrees with the catalog, the date is the catalog's (or the sentinel) and the memo still agrees. |
| `VodCache.VodCreatedDateStable` | dl.py:113-116 | Asking again is a hit with the same date and an unchanged memo, so every name for a clip uses one directory. |
| `Dl.ClipDirectory` | dl.py:92-104 | The directory is a level below the base path and ends in `/`. It fails exactly when the date's bin would fall before year 1. |
| `DlProperties.SameWeekSameDirectory` | dl.py:92-104 | Same week and same game (up to ASCII case) give the same directory; the title and the index play no part. |
| `DlProperties.DirectoryOfBin` | dl.py:92-104 | With a week bin `b` for the date, `base_path_for_clip` is `basepath/` + the `%m-%d-%Y` label of `b` + `/` + the lowered game + `/`. |
| `DlProperties.SentinelDirectory` | dl.py:106-111 | A clip without a vod goes to `basepath/12-30-1979/game/`. |
| `Probe.FirstFree` | dl.py:129-131 | The probe from index 0 stops at an absent variant with every variant below it present. |
| `Probe.FirstFreeFrom` | dl.py:129-131 | The probe stops at an absent index with every index below it present. |
| `Probe.PresentBelowBound` | dl.py:129-131 | A finite filesystem holds at most `|fs|` variants, so the probe always ends. |
| `Probe.GenerateIndex` | dl.py:127-133 | Index 0 without `iterate`. With it, the smallest index that is absent while all below are present. |
| `Probe.FirstFreeUnique` | dl.py:127-133 | That index is unique. |
| `Probe.ExistingVariants` | dl.py:118-125 | `iterate_filenames` yields the paths of indices 0, 1, … in order, all present, up to the first absent one. |
| `Probe.ExistingVariantsLength` | dl.py:118-125 | It yields exactly as many paths as the first free index, so none when index 0 is absent. |
| `Probe.ContiguousPresence` | dl.py:118-133 | When the variants form a gap-free run, an index is present exactly when it is below the first free one. |
| `FileStore.IsDuplicate` | dl.py:48-58 | Duplicate means equal digests. A missing file fails, the first path being read first. |
| `FileStore.ScanForDuplicate` | dl.py:75-79 | With all files present, the scan finds a match exactly when some candidate has the trial's digest. A missing trial fails when there is at least one candidate; with none, nothing is read and the answer is "no match". |
| `Dl.Place` | dl.py:63-79 | A clip step never removes or overwrites an existing file. It adds at most the first free index of the clip's location. |
| `Dl.ProcessClip` | dl.py:63-79 | A successful step keeps every existing file unchanged, keeps every existing memo entry with its date, and records the clip's vod in the memo. Only a date overflow or a thumbnail without `-preview-` makes it fail. |
| `Dl.DownloadClips` | dl.py:60-80 | A run, complete or stopped by an exception, keeps every file that existed before it unchanged and every memo entry with its date. After a completed run, the vod of every clip is memoised. |
| `DlProperties.DownloadClipsStopsAtFailure` | dl.py:60-80 | A clip that raises ends the run with its error, leaves the files as they were, and leaves its vod memoised. |
| `Dl.PriorVariants` | dl.py:72-74 | `filenames[:-1]` lists the present variants of indices 0, 1, … in order, exactly one fewer than the listing (none when index 0 is free). |
| `DlProperties.PlaceFastPath` | dl.py:64-67 | Index 0 free: only index 0 is added. |
| `DlProperties.PlaceTrial` | dl.py:69-79 | Index 0 taken: the trial is written at the first free index. It is removed exactly when an entry of `filenames[:-1]` has its digest. |
| `DlProperties.PlaceShape` | dl.py:63-79 | A step either changes nothing or adds exactly the first free index. |
| `DlProperties.PriorVariantsOfContiguous` | dl.py:69-74 | For a gap-free run, `filenames[:-1]` is exactly indices `0 .. i-1`, so the trial is never compared with itself. |
| `DlProperties.PlaceContiguous` | dl.py:69-79 | For a gap-free run with index 0 taken, the trial is dropped exactly when an earlier index has its digest, and kept otherwise. |
| `DlProperties.PlacePreservesContiguity` | dl.py:63-79 | A step keeps the clip's variants gap-free, and those of every other well-formed location. |
| `DlProperties.PlaceIdempotent` | dl.py:69-79 | On a gap-free run, re-processing a download whose digest is already stored at some index changes nothing. |
| `DlProperties.PlaceKeepsDistinct` | dl.py:63-79 | On a gap-free run, a download whose digest matches no variant is kept, at the first free index. |
| `DlProperties.PlaceTwoDistinct` | dl.py:63-79 | On a gap-free run, two different clips with one title, neither archived before, end up at indices `i` and `i + 1`. |
| `DlProperties.PlaceArchives` | dl.py:63-79 | After a step on a gap-free run, a file with the download's digest is stored at the clip's location. |
| `DlProperties.TrialComparedWithItself` | dl.py:72-79 | Index `i + 1` present with `i` the first free index: the trial is compared with itself and removed, whatever its contents. |
| `DlProperties.ClipPlacement` | dl.py:63-66 | A clip's resolved location is well formed and lies in the archive, below the base path. |
| `DlProperties.ProcessClipPlaces` | dl.py:63-79 | With a memo that agrees with the catalog, a step is `Place` at the clip's catalog-determined location. It fails exactly when that location or the media URL cannot be formed. |
| `DlProperties.ProcessClipPreservesContiguity` | dl.py:63-79 | A clip step keeps every well-formed location of the archive (below the base path) gap-free. |
| `DlProperties.DownloadClipsPreservesContiguity` | dl.py:60-80 | So does a whole run: from a gap-free archive under the base path, the archive stays gap-free, whatever lies elsewhere on the filesystem. |
| `DlProperties.DownloadClipsKeepsMemoConsistent` | dl.py:106-116 | A run keeps the memo in agreement with the catalog. |
| `DlProperties.ArchivedKept` | dl.py:63-79 | A file that is archived stays archived once later steps keep all existing files. |
| `DlProperties.DownloadClipsArchives` | dl.py:60-80 | After a completed run from a gap-free archive under the base path and a memo that agrees with the catalog, every clip of the batch has a file with its digest at its location. |
| `DlProperties.DownloadClipsIdempotent` | dl.py:60-80 | From a gap-free archive under the base path and a memo that agrees with the catalog, a run over clips that are all archived completes and changes no file. |
| `DlProperties.RunTwice` | dl.py:60-80 | When a batch completed from a gap-free archive under the base path and a memo that agrees with the catalog, running it again, in the same process or a new one, completes and leaves the filesystem unchanged. |
| `Catalog.MediaUrl` | dl.py:39-43 | Fails exactly when the thumbnail has no `-preview-`. Otherwise the URL is the thumbnail up to the first `-preview-`, followed by `.mp4`. |
| `Catalog.MediaUrlOfThumbnail` | clip_dl.py:47-49 | `prefix-preview-rest` gives `prefix.mp4` when the prefix holds no earlier marker. |
| `Catalog.Decide` | clip_dl.py:44-50 | Missing `data`: KeyError. Empty `data`: None. Otherwise the media URL of the first entry's thumbnail, failing without the marker. |
| `Catalog.RetrieveMp4Data` | clip_dl.py:33-50 | It ends in `StillThrottled` exactly when every answer is a 429. |
| `Catalog.RetryUntilAnswered` | clip_dl.py:38-42 | Any run of 429 answers is skipped: the result is the decision on the first other answer. |
| `Catalog.ExtractSlug` | dl.py:143-144 | The slug holds no `/` and has no whitespace at either end; with `ExtractSlugOfLink` and `ExtractSlugOfBareSlug` it is fixed for lines with and without a `/`. |
| `Catalog.ExtractSlugOfLink` | dl.py:143-144 | For `prefix/tail` with no `/` in `tail`, the slug is `tail` stripped. |
| `Catalog.ExtractSlugOfBareSlug` | dl.py:143-144 | A line with no `/` (`rfind` gives -1) is the slug itself, stripped. |
| `Catalog.LinkSlugs` | clip_dl.py:110-117 | One slug per line, in order: slug `k` is the stripped last segment of line `k`, and none holds a `/`. |
| `ClipDl.CopyLocation` | clip_dl.py:88-93 | The copies of a title live in one well-formed location under the flat base path. |
| `ClipDl.GenerateFilename` | clip_dl.py:84-98 | `out_path` is always the base path plus `out_filename`. Without `iterate` the name is `stem.mp4`. With it, the first free `stem_i.mp4`, which is absent. |
| `ClipDl.PrimaryNeverProbed` | clip_dl.py:88-93 | The primary is never one of the probed names, so the first copy lands at `stem_0.mp4`. |
| `ClipDl.PrimaryMeetsCopySlot` | clip_dl.py:84-98 | For every stem and index `i`, the primary of title `"<stem> <i>"` is copy slot `i` of title `<stem>`. |
| `ClipDl.ProcessClipLeavesGap` | clip_dl.py:71-74 | Storing the primary of `"<stem> <i>"` with `i > 0` can fill copy slot `i` of `<stem>` while slot 0 stays free. |
| `ClipDl.Download` | clip_dl.py:100-108 | Succeeds exactly when the catalog query yields a URL, and then the content is the bytes fetched from that URL. A failed query fails with its own error; an empty answer makes `urlretrieve(None, …)` fail. |
| `ClipDl.ProcessClip` | clip_dl.py:70-82 | A step keeps every existing file and adds at most the primary or the first free copy. It fails exactly when the download does. |
| `ClipDl.DownloadClips` | clip_dl.py:67-82 | A run keeps every file that existed before it. |
| `ClipDl.ProcessClipFastPath` | clip_dl.py:71-74 | Primary free: only the primary is added. |
| `ClipDl.ProcessClipCopy` | clip_dl.py:76-82 | Primary taken: the copy is written at the first free index and removed exactly when its digest is the primary's. No other file is compared. |
| `ClipDl.ProcessClipNotIdempotent` | clip_dl.py:79-81 | A download already stored at some `stem_j.mp4` but differing from the primary is stored again as a new file. |

## Left out

- Loading the YAML config and building the Twitch client at import time (dl.py:15-25, clip_dl.py:13-23): I/O.
- The network calls `urlretrieve`, `videos.get_by_id` and `requests.get`. They are total functions in `Env`. Network and transfer failures are not modelled.
- `get_top` and `get_by_slug` are not modelled: a run takes the list of clips they would return.
- The 30-second `sleep` before a retry. The catalog's answers are a finite sequence, and `Catalog.RetrieveMp4Data` returns `StillThrottled` when every one of them is a 429. The program retries by calling itself (clip_dl.py:42), one Python frame per 429, so after about a thousand consecutive 429 answers (the default recursion limit) it raises RecursionError, which `download_clips` does not catch. The model does not fix that depth; either way the run ends with an exception.
- MD5 itself and file reading: the digest is an uninterpreted function of the contents.
- `dl_progress`: display only, with float division by a possibly zero total.
- `main` and the argument dispatch (dl.py:156-174, clip_dl.py:119-135): command-line plumbing.
- `os.makedirs` (dl.py:102): files are keyed by full path, so directories are implicit.
- `print` output.
- Text.Lower: lowers ASCII letters only, keeping every other character; Python's `str.lower` also lowers non-ASCII letters.
- Calendar.DateLabel: the month, day and year come from a civil-from-days formula. Its fields are proved in range for every day (`Calendar.CivilDate`), but its agreement with the Gregorian calendar is proved (`Calendar.SentinelWeek`) only at the sentinel date. `%Y` is written without zero padding, as glibc does below year 1000.
- VodCache.VodCreatedDate: Python re-queries when the memoised value is falsy. A `datetime` is never falsy, so the model tests membership only.
- The creation time of day: dates are whole days, since only the date reaches the directory name.

=== FILE: calendar.dfy ===
/** Dates as Python day ordinals (`date.toordinal()`: 0001-01-01 is day 1),
    the weekday rule of `date.weekday()` and the Sunday-start week bin. */
module Calendar {
  import opened Results
  import opened Text

  /** Day 3652059 is 9999-12-31, the last day `datetime` can represent. */
  const MaxOrdinal := 3652059

  type Ordinal = d: int | 1 <= d <= MaxOrdinal witness 1

  const Sunday := 6

  /** `date.weekday()`: Monday is 0 and Sunday is 6; day 1 was a Monday, so
      the Mondays are the days `1 + 7k` and the Sundays the multiples of 7. */
  function Weekday(d: int): (w: nat)
    ensures w < 7
    ensures w == 0 <==> (d - 1) % 7 == 0
    ensures w == Sunday <==> d % 7 == 0
  {
    (d + 6) % 7
  }

  /** The number of days back to the most recent Sunday, `(weekday() + 1) % 7`. */
  function WeekShift(d: int): (s: nat)
    ensures s < 7
    ensures Weekday(d - s) == Sunday
    ensures s == 0 <==> Weekday(d) == Sunday
  {
    (Weekday(d) + 1) % 7
  }

  /** The Sunday that starts the week of `d`, as an unbounded day number. */
  function WeekStart(d: int): (s: int)
    ensures s <= d < s + 7
    ensures Weekday(s) == Sunday
  {
    d - WeekShift(d)
  }

  /** The week start as a `datetime` subtraction: below day 1 Python raises
      OverflowError, which only happens for 0001-01-01 .. 0001-01-06. */
  function BinDate(d: Ordinal): (r: Result<Ordinal, Error>)
    ensures r.Success? <==> d >= 7
    ensures r.Success? ==> d - 6 <= r.value <= d && Weekday(r.value) == Sunday
    ensures r.Failure? ==> r.error == DateOverflow(WeekStart(d))
  {
    var s := WeekStart(d);
    if s < 1 then Failure(DateOverflow(s)) else Success(s)
  }

  /** A Sunday lies in no other week than its own. */
  lemma WeekStartOfSunday(d: int)
    requires Weekday(d) == Sunday
    ensures WeekStart(d) == d
  {
  }

  /** The week start is the only Sunday `s` with `s <= d < s + 7`, so two days
      share a bin exactly when they lie in the same Sunday-start week. */
  lemma WeekStartUnique(d: int, s: int)
    requires Weekday(s) == Sunday && s <= d < s + 7
    ensures WeekStart(d) == s
  {
    var t := WeekStart(d);
    assert (s + 6) % 7 == 6 && (t + 6) % 7 == 6;
    assert (s - t) % 7 == 0;
  }

  lemma SameWeekSameBin(d1: int, d2: int)
    ensures WeekStart(d1) == WeekStart(d2) <==> WeekStart(d1) <= d2 < WeekStart(d1) + 7
  {
    if WeekStart(d1) <= d2 < WeekStart(d1) + 7 {
      WeekStartUnique(d2, WeekStart(d1));
    }
  }

  datatype CivilDay = CivilDay(year: nat, month: nat, day: nat)

  /** The proleptic Gregorian year, month and day of a day ordinal, by the
      era-based civil-from-days formula counted from 0000-03-01. */
  function CivilDate(d: Ordinal): (c: CivilDay)
    ensures 1 <= c.month <= 12 && 1 <= c.day <= 31
  {
    var z := d + 305;
    var era := z / 146097;
    var doe := z - era * 146097;
    DayOfEra(doe);
    var yoe := (doe - doe / 1460 + doe / 36524 - doe / 146096) / 365;
    var doy := doe - (365 * yoe + yoe / 4 - yoe / 100);
    var mp := (5 * doy + 2) / 153;
    var month := if mp < 10 then mp + 3 else mp - 9;
    CivilDay(yoe + era * 400 + (if month <= 2 then 1 else 0), month, doy - (153 * mp + 2) / 5 + 1)
  }

  /** Within one century of a 400-year era (a day of era below 146096), the
      year of era is that century's and the day of year is 0..365. */
  lemma DayOfCentury(doe: int, century: int)
    requires 0 <= century <= 3 && 36524 * century <= doe < 36524 * century + 36524
    ensures var yoe := (doe - doe / 1460 + century) / 365;
            && yoe / 100 == century
            && 0 <= doe - (365 * yoe + yoe / 4 - century) <= 365
  {
    var yoe := (doe - doe / 1460 + century) / 365;
    assert 100 * century <= yoe < 100 * century + 100;
  }

  /** Every day of a 400-year era falls in one of its 400 years, at a day of
      year 0..365 counted from March 1. */
  lemma DayOfEra(doe: int)
    requires 0 <= doe < 146097
    ensures var yoe := (doe - doe / 1460 + doe / 36524 - doe / 146096) / 365;
            && 0 <= yoe <= 399
            && 0 <= doe - (365 * yoe + yoe / 4 - yoe / 100) <= 365
  {
    if doe < 146096 {
      var century := doe / 36524;
      assert doe / 146096 == 0;
      DayOfCentury(doe, century);
    } else {
      assert doe / 1460 == 100 && doe / 36524 == 4 && doe / 146096 == 1;
      assert 145999 / 365 == 399 && 399 / 4 == 99 && 399 / 100 == 3;
    }
  }

  /** `%m` and `%d`: at least two digits, zero-padded. */
  function Pad2(n: nat): (s: string)
    ensures AllDigits(s)
    ensures n < 100 ==> |s| == 2
  {
    if n < 10 then ['0'] + Decimal(n)
    else
      assert n < 100 ==> |Decimal(n / 10)| == 1;
      Decimal(n)
  }

  /** `strftime("%m-%d-%Y")`; `%Y` is written without padding as glibc does. */
  function DateLabel(d: Ordinal): (r: string)
    ensures '/' !in r
    ensures |r| >= 7 && r[2] == '-' && r[5] == '-'
    ensures forall k :: 0 <= k < |r| && k != 2 && k != 5 ==> IsDigit(r[k])
  {
    var c := CivilDate(d);
    LabelShape(Pad2(c.month), Pad2(c.day), Decimal(c.year));
    Pad2(c.month) + "-" + Pad2(c.day) + "-" + Decimal(c.year)
  }

  lemma LabelShape(mm: string, dd: string, y: string)
    requires AllDigits(mm) && AllDigits(dd) && AllDigits(y)
    requires |mm| == 2 && |dd| == 2 && |y| >= 1
    ensures var r := mm + "-" + dd + "-" + y;
            && '/' !in r && |r| >= 7 && r[2] == '-' && r[5] == '-'
            && forall k :: 0 <= k < |r| && k != 2 && k != 5 ==> IsDigit(r[k])
  {
    var r := mm + "-" + dd + "-" + y;
    assert forall k :: 6 <= k < |r| ==> r[k] == y[k - 6];
  }

  lemma SentinelCivilDate()
    ensures CivilDate(722813) == CivilDay(1979, 12, 30)
  {
    assert 723118 / 146097 == 4;
    assert 138730 / 1460 == 95 && 138730 / 36524 == 3 && 138730 / 146096 == 0;
    assert 138638 / 365 == 379 && 379 / 4 == 94 && 379 / 100 == 3;
    assert 1522 / 153 == 9 && 1379 / 5 == 275;
  }

  lemma SentinelYearDigits()
    ensures Decimal(1979) == "1979"
  {
    assert Decimal(1) == "1";
    assert Decimal(19) == Decimal(1) + "9";
    assert Decimal(197) == Decimal(19) + "7";
    assert Decimal(1979) == Decimal(197) + "9";
  }

  lemma SentinelDayDigits()
    ensures Pad2(12) == "12" && Pad2(30) == "30"
  {
    assert Decimal(1) == "1" && Decimal(3) == "3";
    assert Decimal(12) == Decimal(1) + "2";
    assert Decimal(30) == Decimal(3) + "0";
  }

  /** 1980-01-01 (day 722815) is a Tuesday; its week starts on 1979-12-30. */
  lemma SentinelWeek()
    ensures Weekday(722815) == 1
    ensures WeekStart(722815) == 722813
    ensures DateLabel(722813) == "12-30-1979"
  {
    SentinelCivilDate();
    SentinelYearDigits();
    SentinelDayDigits();
    assert DateLabel(722813) == Pad2(12) + "-" + Pad2(30) + "-" + Decimal(1979);
  }
}

=== FILE: catalog.dfy ===
/** What the archiver takes from the clip catalog: clip metadata, the media URL
    derived from a thumbnail URL, the helix response decision of the older
    script, and slugs read from clip links. */
module Catalog {
  import opened Results
  import opened Text

  /** The catalog's clip record as far as the archiver reads it; `vod` is None
      when the clip has no parent video (`clip['vod']['id']` raises). */
  datatype Clip = Clip(slug: string, title: string, game: string,
                       vod: Option<string>, thumbnail: string)

  const PreviewMarker := "-preview-"

  /** `url` is the part of `thumb` before its first `-preview-`, plus `.mp4`. */
  ghost predicate IsMediaUrlOf(url: string, thumb: string) {
    && |url| >= 4
    && url[|url| - 4..] == ".mp4"
    && MatchesAt(thumb, PreviewMarker, |url| - 4)
    && url[..|url| - 4] == thumb[..|url| - 4]
    && forall j: nat :: j < |url| - 4 ==> !MatchesAt(thumb, PreviewMarker, j)
  }

  /** `thumb[:thumb.index("-preview-")] + '.mp4'`; ValueError without the marker. */
  function MediaUrl(thumb: string): (r: Result<string, Error>)
    ensures r.Failure? <==> forall j: nat :: !MatchesAt(thumb, PreviewMarker, j)
    ensures r.Failure? ==> r.error == NoPreviewMarker(thumb)
    ensures r.Success? ==> IsMediaUrlOf(r.value, thumb)
  {
    match IndexOf(thumb, PreviewMarker)
    case None => Failure(NoPreviewMarker(thumb))
    case Some(k) =>
      var url := thumb[..k] + ".mp4";
      assert url[..|url| - 4] == thumb[..k];
      Success(url)
  }

  /** A thumbnail URL `prefix + "-preview-" + rest` whose prefix holds no earlier
      marker yields `prefix + ".mp4"`, whatever follows the marker. */
  lemma MediaUrlOfThumbnail(prefix: string, rest: string)
    requires forall j: nat :: j < |prefix| ==> !MatchesAt(prefix + PreviewMarker, PreviewMarker, j)
    ensures MediaUrl(prefix + PreviewMarker + rest) == Success(prefix + ".mp4")
  {
    var thumb := prefix + PreviewMarker + rest;
    assert MatchesAt(thumb, PreviewMarker, |prefix|) by {
      assert thumb[|prefix|..|prefix| + |PreviewMarker|] == PreviewMarker;
    }
    forall j: nat | j < |prefix|
      ensures !MatchesAt(thumb, PreviewMarker, j)
    {
      assert !MatchesAt(prefix + PreviewMarker, PreviewMarker, j);
      assert j + |PreviewMarker| <= |prefix + PreviewMarker|;
      assert thumb[j..j + |PreviewMarker|] == (prefix + PreviewMarker)[j..j + |PreviewMarker|];
    }
    var r := MediaUrl(thumb);
    var k := |r.value| - 4;
    assert r.value == r.value[..k] + ".mp4";
    assert thumb[..|prefix|] == prefix;
  }

  /** The helix `clips?id=` response: an optional `status`, and the
      `thumbnail_url` of each entry of an optional `data` list. */
  datatype Response = Response(status: Option<int>, data: Option<seq<string>>)

  const TooManyRequests := 429

  predicate Throttled(resp: Response) {
    resp.status == Some(TooManyRequests)
  }

  /** What `retrieve_mp4_data` does with a response that is not a 429: a
      missing `data` key raises, an empty list gives None, otherwise the media
      URL of the first entry's thumbnail. */
  function Decide(resp: Response): (r: Result<Option<string>, Error>)
    requires !Throttled(resp)
    ensures resp.data.None? ==> r == Failure(MissingData)
    ensures resp.data == Some([]) ==> r == Success(None)
    ensures resp.data.Some? && |resp.data.value| > 0 ==>
              (r.Success? <==> exists j: nat :: MatchesAt(resp.data.value[0], PreviewMarker, j))
              && (r.Success? ==> r.value.Some? && IsMediaUrlOf(r.value.value, resp.data.value[0]))
  {
    match resp.data
    case None => Failure(MissingData)
    case Some(entries) =>
      if |entries| == 0 then Success(None)
      else
        var url :- MediaUrl(entries[0]);
        Success(Some(url))
  }

  /** `retrieve_mp4_data` over the catalog's successive answers: a 429 sends it
      to the next answer (the sleep is not modelled); running out of answers
      while still throttled is `StillThrottled`. Python retries by recursion,
      one frame per 429, so a long enough run of 429 answers ends in
      RecursionError, which likewise ends the run. */
  function RetrieveMp4Data(responses: seq<Response>): (r: Result<Option<string>, Error>)
    ensures r == Failure(StillThrottled) <==> forall k :: 0 <= k < |responses| ==> Throttled(responses[k])
  {
    if |responses| == 0 then Failure(StillThrottled)
    else if Throttled(responses[0]) then
      var r := RetrieveMp4Data(responses[1..]);
      assert forall k :: 1 <= k < |responses| ==> responses[k] == responses[1..][k - 1];
      r
    else Decide(responses[0])
  }

  /** Any number of 429 answers before the first real one change nothing. */
  lemma {:induction false} RetryUntilAnswered(throttled: seq<Response>, resp: Response, later: seq<Response>)
    requires forall k :: 0 <= k < |throttled| ==> Throttled(throttled[k])
    requires !Throttled(resp)
    ensures RetrieveMp4Data(throttled + [resp] + later) == Decide(resp)
  {
    if |throttled| > 0 {
      assert (throttled + [resp] + later)[1..] == throttled[1..] + [resp] + later;
      RetryUntilAnswered(throttled[1..], resp, later);
    }
  }

  /** `link[link.rfind('/')+1:].strip()`: the last path segment of a link. */
  function ExtractSlug(link: string): (r: string)
    ensures '/' !in r
    ensures r == [] || (!IsSpace(r[0]) && !IsSpace(r[|r| - 1]))
  {
    var tail := link[LastIndexOf(link, '/') + 1..];
    assert '/' !in tail;
    Strip(tail)
  }

  lemma ExtractSlugOfLink(prefix: string, tail: string)
    requires '/' !in tail
    ensures ExtractSlug(prefix + "/" + tail) == Strip(tail)
  {
    LastIndexOfAfter(prefix, '/', tail);
    assert (prefix + "/" + tail)[|prefix| + 1..] == tail;
  }

  /** A line without `/` (a bare slug): `rfind` gives -1 and the whole line,
      stripped, is the slug. */
  lemma ExtractSlugOfBareSlug(link: string)
    requires '/' !in link
    ensures ExtractSlug(link) == Strip(link)
  {
    assert link[LastIndexOf(link, '/') + 1..] == link;
  }

  /** `process_clip_link_file`: one slug per line of the link file, in order. */
  function LinkSlugs(lines: seq<string>): (r: seq<string>)
    ensures |r| == |lines|
    ensures forall k :: 0 <= k < |r| ==> r[k] == ExtractSlug(lines[k])
    ensures forall k :: 0 <= k < |r| ==> '/' !in r[k]
  {
    seq(|lines|, k requires 0 <= k < |lines| => ExtractSlug(lines[k]))
  }
}

=== FILE: clip_dl.dfy ===
/** The older downloader: one flat directory, the first copy of a clip at
    `stem.mp4` (the primary) and later copies at `stem_0.mp4`, `stem_1.mp4`, …;
    a later copy is dropped only when it matches the primary, and the media
    URL comes from a helix catalog query that is retried while throttled. */
module ClipDl {
  import opened Results
  import opened Text
  import opened Naming
  import opened FileStore
  import opened Probe
  import opened Catalog

  const BasePath := "/mnt/d/src/adobe/premiere/twitch/twitch_clips/"

  /** The outside world: the catalog's successive answers to a clip query,
      the bytes behind a media URL, and the MD5 digest. */
  datatype Env = Env(catalog: string -> seq<Response>, fetch: string -> Content, md5: Hasher)

  /** The indexed copies of a title live at this location. */
  function CopyLocation(title: string): (loc: Location)
    ensures WellFormed(loc)
  {
    Location(BasePath, Stem(title))
  }

  /** `generate_filename`'s pair `(out_path, out_filename)`. */
  datatype Target = Target(path: string, name: string)

  /** Without `iterate` the primary `stem.mp4`; with it the first free
      `stem_i.mp4`, probing from index 0 and never the primary. */
  function GenerateFilename(fs: FileSystem, title: string, iterate: bool): (r: Target)
    ensures r.path == BasePath + r.name
    ensures !iterate ==> r.name == Stem(title) + ".mp4"
    ensures iterate ==> r.path == VariantPath(CopyLocation(title), FirstFree(fs, CopyLocation(title)))
    ensures iterate ==> r.path !in fs
  {
    var stem := Stem(title);
    var name := if iterate then stem + "_" + Decimal(FirstFree(fs, CopyLocation(title))) else stem;
    Target(BasePath + (name + ".mp4"), name + ".mp4")
  }

  function PrimaryPath(title: string): string {
    GenerateFilename(map[], title, false).path
  }

  /** The primary is never one of the probed names, so the first extra copy
      lands at `stem_0.mp4`. */
  lemma PrimaryNeverProbed(title: string, i: nat)
    ensures PrimaryPath(title) != VariantPath(CopyLocation(title), i)
  {
    var p := PrimaryPath(title);
    var v := VariantPath(CopyLocation(title), i);
    if p == v {
      assert |p| < |v|;
    }
  }

  /** Distinct titles can share a file: the primary of `"<stem> <i>"` is copy
      slot `i` of `<stem>`, so the flat naming is not injective across clips. */
  lemma PrimaryMeetsCopySlot(stem: string, i: nat)
    requires forall k :: 0 <= k < |stem| ==> IsWordChar(stem[k])
    ensures PrimaryPath(stem + " " + Decimal(i)) == VariantPath(CopyLocation(stem), i)
  {
    var digits := Decimal(i);
    StemAppend(stem + " ", digits);
    StemAppend(stem, " ");
    StemOfChar(' ');
    StemOfWords(stem);
    StemOfWords(digits);
    assert Stem(stem + " " + digits) == stem + "_" + digits;
    assert PrimaryPath(stem + " " + digits) == BasePath + (stem + "_" + digits + ".mp4");
  }

  /** `download`: query the catalog for the slug, then fetch the media URL. An
      empty answer makes `urlretrieve(None, …)` raise. */
  function Download(slug: string, env: Env): (r: Result<Content, Error>)
    ensures r.Success? <==> RetrieveMp4Data(env.catalog(slug)).Success?
                            && RetrieveMp4Data(env.catalog(slug)).value.Some?
    ensures r.Success? ==> r.value == env.fetch(RetrieveMp4Data(env.catalog(slug)).value.value)
    ensures r.Failure? ==> r.error == (if RetrieveMp4Data(env.catalog(slug)).Failure?
                                       then RetrieveMp4Data(env.catalog(slug)).error else NoMediaUrl)
  {
    var url :- RetrieveMp4Data(env.catalog(slug));
    match url
    case None => Failure(NoMediaUrl)
    case Some(u) => Success(env.fetch(u))
  }

  /** One iteration of `download_clips`: the primary when it is free; otherwise
      the first free indexed copy, removed again when its digest is the
      primary's. Nothing that existed is removed or overwritten. */
  function ProcessClip(fs: FileSystem, clip: Clip, env: Env): (r: Result<FileSystem, Error>)
    ensures r.Success? ==> Keeps(fs, r.value)
    ensures r.Success? ==> r.value.Keys <= fs.Keys + {PrimaryPath(clip.title),
                                                     GenerateFilename(fs, clip.title, true).path}
    ensures r.Failure? <==> Download(clip.slug, env).Failure?
  {
    var out := GenerateFilename(fs, clip.title, false);
    if !AlreadyDownloaded(fs, out.path) then
      var c :- Download(clip.slug, env);
      Success(fs[out.path := c])
    else
      var dup := GenerateFilename(fs, clip.title, true);
      var c :- Download(clip.slug, env);
      var written := fs[dup.path := c];
      match IsDuplicate(written, out.path, dup.path, env.md5)
      case Failure(e) => Failure(e)
      case Success(same) => Success(if same then written - {dup.path} else written)
  }

  datatype Run = Run(fs: FileSystem, failure: Option<Error>)

  /** `download_clips`: the clips in order; an exception ends the run. */
  function DownloadClips(fs: FileSystem, clips: seq<Clip>, env: Env): (r: Run)
    ensures Keeps(fs, r.fs)
    decreases |clips|
  {
    if |clips| == 0 then Run(fs, None)
    else
      var step := ProcessClip(fs, clips[0], env);
      if step.Failure? then Run(fs, Some(step.error))
      else DownloadClips(step.value, clips[1..], env)
  }

  /** The primary free: the download goes to the primary and nothing else changes. */
  lemma ProcessClipFastPath(fs: FileSystem, clip: Clip, env: Env, c: Content)
    requires PrimaryPath(clip.title) !in fs
    requires Download(clip.slug, env) == Success(c)
    ensures ProcessClip(fs, clip, env) == Success(fs[PrimaryPath(clip.title) := c])
  {
  }

  /** The primary taken: the copy goes to the first free `stem_i.mp4` and is
      removed exactly when its digest is the primary's; no other file is
      compared. */
  lemma ProcessClipCopy(fs: FileSystem, clip: Clip, env: Env, c: Content)
    requires PrimaryPath(clip.title) in fs
    requires Download(clip.slug, env) == Success(c)
    ensures var copy := VariantPath(CopyLocation(clip.title), FirstFree(fs, CopyLocation(clip.title)));
            ProcessClip(fs, clip, env)
              == Success(if env.md5(fs[PrimaryPath(clip.title)]) == env.md5(c) then fs else fs[copy := c])
  {
    var loc := CopyLocation(clip.title);
    var copy := VariantPath(loc, FirstFree(fs, loc));
    PrimaryNeverProbed(clip.title, FirstFree(fs, loc));
    assert fs[copy := c] - {copy} == fs;
    assert fs[copy := c][PrimaryPath(clip.title)] == fs[PrimaryPath(clip.title)];
  }

  /** Not idempotent: a download already archived at some `stem_j.mp4` but
      differing from the primary is stored once more, as a new file. */
  lemma ProcessClipNotIdempotent(fs: FileSystem, clip: Clip, env: Env, c: Content, j: nat)
    requires PrimaryPath(clip.title) in fs
    requires VariantPath(CopyLocation(clip.title), j) in fs
    requires env.md5(fs[VariantPath(CopyLocation(clip.title), j)]) == env.md5(c)
    requires env.md5(fs[PrimaryPath(clip.title)]) != env.md5(c)
    requires Download(clip.slug, env) == Success(c)
    ensures ProcessClip(fs, clip, env).Success?
    ensures |ProcessClip(fs, clip, env).value.Keys| == |fs.Keys| + 1
  {
    var loc := CopyLocation(clip.title);
    var copy := VariantPath(loc, FirstFree(fs, loc));
    ProcessClipCopy(fs, clip, env, c);
    assert fs[copy := c].Keys == fs.Keys + {copy};
  }

  /** Unlike `dl.py`, this script can leave gaps among the copies of a title:
      the primary of `"<stem> <i>"` fills copy slot `i > 0` of `<stem>` while
      slot 0 stays free. Copies are compared with the primary only, so the gap
      does not make a copy be compared with itself. */
  lemma ProcessClipLeavesGap(fs: FileSystem, stem: string, i: nat, clip: Clip, env: Env, c: Content)
    requires forall k :: 0 <= k < |stem| ==> IsWordChar(stem[k])
    requires i > 0 && clip.title == stem + " " + Decimal(i)
    requires PrimaryPath(clip.title) !in fs && VariantPath(CopyLocation(stem), 0) !in fs
    requires Download(clip.slug, env) == Success(c)
    ensures ProcessClip(fs, clip, env).Success?
    ensures !Contiguous(ProcessClip(fs, clip, env).value, CopyLocation(stem))
  {
    var loc := CopyLocation(stem);
    ProcessClipFastPath(fs, clip, env, c);
    PrimaryMeetsCopySlot(stem, i);
    var after := fs[VariantPath(loc, i) := c];
    if VariantPath(loc, 0) == VariantPath(loc, i) {
      VariantPathInjective(loc, 0, i);
    }
    assert VariantPath(loc, i) in after && VariantPath(loc, 0) !in after;
  }
}

=== FILE: dl.dfy ===
/** The current downloader: clips are filed under
    `basepath/MM-DD-YYYY/game/stem_i.mp4`, where the date is the Sunday that
    starts the parent video's week, and a clip whose index 0 is taken is
    downloaded to the first free index and dropped again when its digest
    matches an earlier variant. */
module Dl {
  import opened Results
  import opened Text
  import opened Calendar
  import opened Naming
  import opened FileStore
  import opened Probe
  import opened Catalog
  import opened VodCache

  const BasePath := "/mnt/e/src/adobe/premiere/twitch/twitch_clips"

  /** The outside world: the catalog's vod dates, the bytes behind a media URL
      (`urlretrieve`) and the MD5 digest. */
  datatype Env = Env(vodDate: VodLookup, fetch: string -> Content, md5: Hasher)

  /** The filesystem and the process-wide vod date memo. */
  datatype State = State(fs: FileSystem, cache: Cache)

  /** `base_path_for_clip` once the clip's date is known: the week-start date
      and the lowercased game, each a directory level under the base path. */
  function ClipDirectory(date: Ordinal, game: string): (r: Result<string, Error>)
    ensures r.Success? <==> date >= 7
    ensures r.Success? ==> |r.value| > |BasePath| + 1 && r.value[..|BasePath| + 1] == BasePath + "/"
    ensures r.Success? ==> r.value[|r.value| - 1] == '/'
  {
    var bin :- BinDate(date);
    JoinedDirectory(BasePath + "/", DateLabel(bin), Lower(game));
    Success(BasePath + "/" + DateLabel(bin) + "/" + Lower(game) + "/")
  }

  lemma JoinedDirectory(head: string, week: string, game: string)
    ensures (head + week + "/" + game + "/")[..|head|] == head
    ensures (head + week + "/" + game + "/")[|head + week + "/" + game + "/"| - 1] == '/'
  {
  }

  /** `iterate_filenames` after the trial was written, without its last entry
      (`filenames[:-1]`). */
  function PriorVariants(fs: FileSystem, loc: Location): (r: seq<string>)
    ensures forall k :: 0 <= k < |r| ==> r[k] == VariantPath(loc, k) && r[k] in fs
    ensures FirstFree(fs, loc) == 0 ==> r == []
    ensures FirstFree(fs, loc) > 0 ==> |r| == FirstFree(fs, loc) - 1
  {
    var names := ExistingVariants(fs, loc);
    ExistingVariantsLength(fs, loc);
    if |names| > 0 then names[..|names| - 1] else names
  }

  /** The filesystem half of one iteration of `download_clips`, for a clip at
      `loc` whose download yields `c`: write index 0 when it is free; otherwise
      write the first free index and remove it again if an earlier variant has
      the same digest. It removes and overwrites nothing that existed, and
      adds at most the first free index of `loc`. */
  function Place(fs: FileSystem, loc: Location, c: Content, md5: Hasher): (r: Result<FileSystem, Error>)
    ensures r.Success?
    ensures Keeps(fs, r.value)
    ensures r.value.Keys <= fs.Keys + {VariantPath(loc, FirstFree(fs, loc))}
  {
    var primary := VariantPath(loc, GenerateIndex(fs, loc, false));
    if !AlreadyDownloaded(fs, primary) then
      Success(fs[primary := c])
    else
      var trial := VariantPath(loc, GenerateIndex(fs, loc, true));
      var written := fs[trial := c];
      match ScanForDuplicate(written, PriorVariants(written, loc), trial, md5)
      case Failure(e) => Failure(e)
      case Success(duplicate) => Success(if duplicate then written - {trial} else written)
  }

  /** One iteration of `download_clips`: resolve the date (through the memo),
      the directory and the media URL, then place the download. A failure
      leaves the files as they were; a memo entry, once made, is never changed. */
  function ProcessClip(st: State, clip: Clip, env: Env): (r: Result<State, Error>)
    ensures r.Success? ==> Keeps(st.fs, r.value.fs)
    ensures r.Success? ==> clip.vod.Some? ==> clip.vod.value in r.value.cache
    ensures r.Success? ==> forall v :: v in st.cache ==> v in r.value.cache && r.value.cache[v] == st.cache[v]
    ensures r.Failure? ==> r.error.DateOverflow? || r.error.NoPreviewMarker?
  {
    var resolved := VodCreatedDate(st.cache, clip.vod, env.vodDate);
    var dir :- ClipDirectory(resolved.date, clip.game);
    var url :- MediaUrl(clip.thumbnail);
    match Place(st.fs, Location(dir, Stem(clip.title)), env.fetch(url), env.md5)
    case Failure(e) => Failure(e)
    case Success(fs) => Success(State(fs, resolved.cache))
  }

  /** A run ends with the final state, or with the state at the exception
      that stopped it. */
  datatype Run = Run(state: State, failure: Option<Error>)

  /** `download_clips`: the clips in order; an exception ends the run. No file
      that existed before the run is removed or changed by it. Both exceptions
      a clip can raise come after `vod_created_date` has run, so the failing
      clip's vod stays in the memo while its files stay as they were. A memo
      entry, once made, is never changed. */
  function DownloadClips(st: State, clips: seq<Clip>, env: Env): (r: Run)
    ensures Keeps(st.fs, r.state.fs)
    ensures forall v :: v in st.cache ==> v in r.state.cache && r.state.cache[v] == st.cache[v]
    ensures r.failure.None? ==> forall k :: 0 <= k < |clips| && clips[k].vod.Some? ==>
              clips[k].vod.value in r.state.cache
    decreases |clips|
  {
    if |clips| == 0 then Run(st, None)
    else
      var step := ProcessClip(st, clips[0], env);
      if step.Failure? then
        Run(State(st.fs, VodCreatedDate(st.cache, clips[0].vod, env.vodDate).cache), Some(step.error))
      else
        var r := DownloadClips(step.value, clips[1..], env);
        assert forall k :: 1 <= k < |clips| ==> clips[k] == clips[1..][k - 1];
        r
  }
}

=== FILE: dl_properties.dfy ===
/** What the current downloader guarantees: where a clip is filed, that a run
    never loses a file, that the variants of a location stay a gap-free
    prefix `0 .. k-1`, that re-running a batch changes nothing, and the one
    case (a gap after the first free index) in which it drops a new clip. */
module DlProperties {
  import opened Results
  import opened Text
  import opened Calendar
  import opened Naming
  import opened FileStore
  import opened Probe
  import opened Catalog
  import opened VodCache
  import opened Dl

  // ---------------------------------------------------------------- placement

  /** Clips from the same Sunday-start week and the same game (up to ASCII case)
      share a directory; the title and the index play no part in it. */
  lemma SameWeekSameDirectory(d1: Ordinal, d2: Ordinal, g1: string, g2: string)
    requires WeekStart(d1) <= d2 < WeekStart(d1) + 7
    requires Lower(g1) == Lower(g2)
    ensures ClipDirectory(d1, g1) == ClipDirectory(d2, g2)
  {
    SameWeekSameBin(d1, d2);
  }

  /** A clip without a parent video lands in the 12-30-1979 bucket. */
  lemma SentinelDirectory(game: string)
    ensures ClipDirectory(Sentinel, game) == Success(BasePath + "/" + "12-30-1979" + "/" + Lower(game) + "/")
  {
    SentinelWeek();
    DirectoryOfBin(Sentinel, game, 722813);
  }

  lemma DirectoryOfBin(date: Ordinal, game: string, bin: Ordinal)
    requires BinDate(date) == Success(bin)
    ensures ClipDirectory(date, game) == Success(BasePath + "/" + DateLabel(bin) + "/" + Lower(game) + "/")
  {
  }

  /** The location and downloaded contents of a clip, as fixed by the catalog
      alone (no memo involved). */
  datatype Placement = Placement(loc: Location, content: Content)

  /** The location is in the archive: its directory lies below the base path. */
  ghost predicate InArchive(loc: Location) {
    |loc.dir| > |BasePath| && loc.dir[..|BasePath| + 1] == BasePath + "/"
  }

  function ClipPlacement(clip: Clip, env: Env): (r: Result<Placement, Error>)
    ensures r.Success? ==> WellFormed(r.value.loc) && InArchive(r.value.loc)
  {
    var dir :- ClipDirectory(EffectiveDate(clip.vod, env.vodDate), clip.game);
    var url :- MediaUrl(clip.thumbnail);
    Success(Placement(Location(dir, Stem(clip.title)), env.fetch(url)))
  }

  /** With a consistent memo, a clip step is `Place` at the clip's placement,
      fails exactly when the placement does, and keeps the memo consistent. */
  lemma ProcessClipPlaces(st: State, clip: Clip, env: Env)
    requires Consistent(st.cache, env.vodDate)
    ensures var p := ClipPlacement(clip, env);
            var r := ProcessClip(st, clip, env);
            && (r.Success? <==> p.Success?)
            && (r.Failure? ==> r.error == p.error)
            && (r.Success? ==> r.value.fs == Place(st.fs, p.value.loc, p.value.content, env.md5).value
                               && Consistent(r.value.cache, env.vodDate))
  {
    VodCreatedDateConsistent(st.cache, clip.vod, env.vodDate);
    var resolved := VodCreatedDate(st.cache, clip.vod, env.vodDate);
    assert resolved.date == EffectiveDate(clip.vod, env.vodDate);
    var dir := ClipDirectory(resolved.date, clip.game);
    if dir.Success? {
      var url := MediaUrl(clip.thumbnail);
      if url.Success? {
        var loc := Location(dir.value, Stem(clip.title));
        assert ClipPlacement(clip, env) == Success(Placement(loc, env.fetch(url.value)));
        var placed := Place(st.fs, loc, env.fetch(url.value), env.md5);
        assert ProcessClip(st, clip, env) == Success(State(placed.value, resolved.cache));
      }
    }
  }

  // ---------------------------------------------------------------- one step

  /** Index 0 free: the download goes to index 0 and nothing else changes. */
  lemma PlaceFastPath(fs: FileSystem, loc: Location, c: Content, md5: Hasher)
    requires VariantPath(loc, 0) !in fs
    ensures Place(fs, loc, c, md5) == Success(fs[VariantPath(loc, 0) := c])
  {
  }

  /** Index 0 taken: the trial goes to the first free index and is removed
      exactly when some entry of `filenames[:-1]` has its digest. */
  lemma PlaceTrial(fs: FileSystem, loc: Location, c: Content, md5: Hasher)
    requires VariantPath(loc, 0) in fs
    ensures var trial := VariantPath(loc, FirstFree(fs, loc));
            var written := fs[trial := c];
            Place(fs, loc, c, md5)
              == Success(if HasTwin(written, PriorVariants(written, loc), trial, md5) then fs else written)
  {
    var trial := VariantPath(loc, FirstFree(fs, loc));
    assert fs[trial := c] - {trial} == fs;
  }

  /** Either nothing changes or exactly the first free index is added. */
  lemma PlaceShape(fs: FileSystem, loc: Location, c: Content, md5: Hasher)
    ensures var r := Place(fs, loc, c, md5).value;
            r == fs || r == fs[VariantPath(loc, FirstFree(fs, loc)) := c]
  {
    if VariantPath(loc, 0) !in fs {
      FirstFreeUnique(fs, loc, 0);
    } else {
      PlaceTrial(fs, loc, c, md5);
    }
  }

  /** Under contiguity the trial is the last of the listed variants, so
      `filenames[:-1]` is exactly indices `0 .. i-1`: the variants that existed
      before, and never the trial itself. */
  lemma PriorVariantsOfContiguous(fs: FileSystem, loc: Location, c: Content)
    requires Contiguous(fs, loc)
    ensures var i := FirstFree(fs, loc);
            PriorVariants(fs[VariantPath(loc, i) := c], loc) == ExistingVariants(fs, loc)
  {
    var i := FirstFree(fs, loc);
    var trial := VariantPath(loc, i);
    var written := fs[trial := c];
    var names := ExistingVariants(written, loc);
    assert VariantPath(loc, i + 1) !in written by {
      if VariantPath(loc, i + 1) == trial {
        VariantPathInjective(loc, i + 1, i);
      }
    }
    assert |names| == i + 1;
    ExistingVariantsLength(fs, loc);
  }

  /** Under contiguity, with index 0 taken: the trial is dropped exactly when
      an earlier index holds a file with the same digest, and kept otherwise. */
  lemma PlaceContiguous(fs: FileSystem, loc: Location, c: Content, md5: Hasher)
    requires Contiguous(fs, loc) && VariantPath(loc, 0) in fs
    ensures var i := FirstFree(fs, loc);
            Place(fs, loc, c, md5).value
              == if exists j: nat :: j < i && md5(fs[VariantPath(loc, j)]) == md5(c)
                 then fs else fs[VariantPath(loc, i) := c]
  {
    var i := FirstFree(fs, loc);
    var trial := VariantPath(loc, i);
    var written := fs[trial := c];
    PlaceTrial(fs, loc, c, md5);
    PriorVariantsOfContiguous(fs, loc, c);
    var prior := PriorVariants(written, loc);
    ExistingVariantsLength(fs, loc);
    assert |prior| == i;
    if HasTwin(written, prior, trial, md5) {
      var k :| 0 <= k < |prior| && prior[k] in written && md5(written[prior[k]]) == md5(written[trial]);
      assert prior[k] == VariantPath(loc, k);
      assert written[prior[k]] == fs[VariantPath(loc, k)];
    } else {
      forall j: nat | j < i
        ensures md5(fs[VariantPath(loc, j)]) != md5(c)
      {
        assert prior[j] == VariantPath(loc, j);
        if VariantPath(loc, j) == trial {
          VariantPathInjective(loc, j, i);
        }
      }
    }
  }

  /** The step keeps every location gap-free: the clip's own, and (paths of
      well-formed locations being distinct) every other one. */
  lemma PlacePreservesContiguity(fs: FileSystem, loc: Location, c: Content, md5: Hasher, other: Location)
    requires Contiguous(fs, other)
    requires other == loc || (WellFormed(loc) && WellFormed(other))
    ensures Contiguous(Place(fs, loc, c, md5).value, other)
  {
    var r := Place(fs, loc, c, md5).value;
    var i := FirstFree(fs, loc);
    PlaceShape(fs, loc, c, md5);
    if r != fs {
      forall j: nat, k: nat | k <= j && VariantPath(other, j) in r
        ensures VariantPath(other, k) in r
      {
        if VariantPath(other, j) == VariantPath(loc, i) {
          if other == loc {
            VariantPathInjective(loc, j, i);
          } else {
            VariantPathsDistinct(other, j, loc, i);
          }
        }
      }
    }
  }

  /** A file of `loc` with digest `d`. */
  ghost predicate Archived(fs: FileSystem, loc: Location, d: string, md5: Hasher) {
    exists j: nat :: VariantPath(loc, j) in fs && md5(fs[VariantPath(loc, j)]) == d
  }

  /** Re-processing a download whose digest is already archived at `loc`
      changes nothing (idempotence of one step). */
  lemma PlaceIdempotent(fs: FileSystem, loc: Location, c: Content, md5: Hasher, j: nat)
    requires Contiguous(fs, loc)
    requires VariantPath(loc, j) in fs && md5(fs[VariantPath(loc, j)]) == md5(c)
    ensures Place(fs, loc, c, md5) == Success(fs)
  {
    ContiguousPresence(fs, loc, j);
    PlaceContiguous(fs, loc, c, md5);
  }

  /** A download whose digest differs from every variant of `loc` is kept at
      the first free index: distinct clips sharing a title all survive. */
  lemma PlaceKeepsDistinct(fs: FileSystem, loc: Location, c: Content, md5: Hasher)
    requires Contiguous(fs, loc)
    requires forall j: nat :: VariantPath(loc, j) in fs ==> md5(fs[VariantPath(loc, j)]) != md5(c)
    ensures Place(fs, loc, c, md5) == Success(fs[VariantPath(loc, FirstFree(fs, loc)) := c])
  {
    if VariantPath(loc, 0) !in fs {
      FirstFreeUnique(fs, loc, 0);
    } else {
      PlaceContiguous(fs, loc, c, md5);
    }
  }

  /** Two distinct downloads with one title, neither archived yet, end up at
      indices `i` and `i + 1`. */
  lemma PlaceTwoDistinct(fs: FileSystem, loc: Location, a: Content, b: Content, md5: Hasher)
    requires Contiguous(fs, loc)
    requires md5(a) != md5(b)
    requires forall j: nat :: VariantPath(loc, j) in fs ==> md5(fs[VariantPath(loc, j)]) != md5(a)
    requires forall j: nat :: VariantPath(loc, j) in fs ==> md5(fs[VariantPath(loc, j)]) != md5(b)
    ensures var i := FirstFree(fs, loc);
            Place(Place(fs, loc, a, md5).value, loc, b, md5)
              == Success(fs[VariantPath(loc, i) := a][VariantPath(loc, i + 1) := b])
  {
    var i := FirstFree(fs, loc);
    PlaceKeepsDistinct(fs, loc, a, md5);
    var fs1 := fs[VariantPath(loc, i) := a];
    PlacePreservesContiguity(fs, loc, a, md5, loc);
    assert VariantPath(loc, i + 1) !in fs1 by {
      if VariantPath(loc, i + 1) == VariantPath(loc, i) {
        VariantPathInjective(loc, i + 1, i);
      }
    }
    FirstFreeUnique(fs1, loc, i + 1);
    forall j: nat | VariantPath(loc, j) in fs1
      ensures md5(fs1[VariantPath(loc, j)]) != md5(b)
    {
      if VariantPath(loc, j) != VariantPath(loc, i) {
        assert fs1[VariantPath(loc, j)] == fs[VariantPath(loc, j)];
      }
    }
    PlaceKeepsDistinct(fs1, loc, b, md5);
  }

  /** After the step, under contiguity, the download's digest is archived. */
  lemma PlaceArchives(fs: FileSystem, loc: Location, c: Content, md5: Hasher)
    requires Contiguous(fs, loc)
    ensures Archived(Place(fs, loc, c, md5).value, loc, md5(c), md5)
  {
    var r := Place(fs, loc, c, md5).value;
    var i := FirstFree(fs, loc);
    if VariantPath(loc, 0) !in fs {
      assert VariantPath(loc, 0) in r && r[VariantPath(loc, 0)] == c;
    } else {
      PlaceContiguous(fs, loc, c, md5);
      if exists j: nat :: j < i && md5(fs[VariantPath(loc, j)]) == md5(c) {
        var j: nat :| j < i && md5(fs[VariantPath(loc, j)]) == md5(c);
        assert VariantPath(loc, j) in r;
      } else {
        assert VariantPath(loc, i) in r && r[VariantPath(loc, i)] == c;
      }
    }
  }

  /** The defect of comparing against `filenames[:-1]`: when the index after
      the first free one already exists (a gap left in the variants), the
      listing runs past the trial, the trial is compared with itself, and it
      is removed whatever its contents, so a new clip is lost. */
  lemma TrialComparedWithItself(fs: FileSystem, loc: Location, c: Content, md5: Hasher)
    requires VariantPath(loc, 0) in fs
    requires VariantPath(loc, FirstFree(fs, loc) + 1) in fs
    ensures Place(fs, loc, c, md5) == Success(fs)
  {
    var i := FirstFree(fs, loc);
    var trial := VariantPath(loc, i);
    var written := fs[trial := c];
    var names := ExistingVariants(written, loc);
    assert |names| > i + 1;
    var prior := PriorVariants(written, loc);
    assert prior[i] == trial;
    assert HasTwin(written, prior, trial, md5);
    PlaceTrial(fs, loc, c, md5);
  }

  // ---------------------------------------------------------------- whole runs

  /** Every well-formed location of the archive is gap-free; files elsewhere
      on the filesystem may be in any state. */
  ghost predicate ArchiveContiguous(fs: FileSystem) {
    forall loc :: WellFormed(loc) && InArchive(loc) ==> Contiguous(fs, loc)
  }

  lemma ProcessClipPreservesContiguity(st: State, clip: Clip, env: Env)
    requires ArchiveContiguous(st.fs)
    ensures ProcessClip(st, clip, env).Success? ==> ArchiveContiguous(ProcessClip(st, clip, env).value.fs)
  {
    var r := ProcessClip(st, clip, env);
    if r.Success? {
      var resolved := VodCreatedDate(st.cache, clip.vod, env.vodDate);
      var dir := ClipDirectory(resolved.date, clip.game).value;
      var url := MediaUrl(clip.thumbnail).value;
      var loc := Location(dir, Stem(clip.title));
      assert WellFormed(loc);
      forall other | WellFormed(other) && InArchive(other)
        ensures Contiguous(r.value.fs, other)
      {
        PlacePreservesContiguity(st.fs, loc, env.fetch(url), env.md5, other);
      }
    }
  }

  lemma {:induction false} DownloadClipsPreservesContiguity(st: State, clips: seq<Clip>, env: Env)
    requires ArchiveContiguous(st.fs)
    ensures ArchiveContiguous(DownloadClips(st, clips, env).state.fs)
    decreases |clips|
  {
    if |clips| > 0 {
      ProcessClipPreservesContiguity(st, clips[0], env);
      var step := ProcessClip(st, clips[0], env);
      if step.Success? {
        DownloadClipsPreservesContiguity(step.value, clips[1..], env);
      }
    }
  }

  lemma {:induction false} DownloadClipsKeepsMemoConsistent(st: State, clips: seq<Clip>, env: Env)
    requires Consistent(st.cache, env.vodDate)
    ensures Consistent(DownloadClips(st, clips, env).state.cache, env.vodDate)
    decreases |clips|
  {
    if |clips| > 0 {
      ProcessClipPlaces(st, clips[0], env);
      var step := ProcessClip(st, clips[0], env);
      if step.Success? {
        DownloadClipsKeepsMemoConsistent(step.value, clips[1..], env);
      }
    }
  }

  /** A clip that raises ends the run at once with its error. Its files stay
      as they were, but its vod stays memoised, since `vod_infos` is written
      before either exception. */
  lemma DownloadClipsStopsAtFailure(st: State, clips: seq<Clip>, env: Env)
    requires |clips| > 0 && ProcessClip(st, clips[0], env).Failure?
    ensures var r := DownloadClips(st, clips, env);
            && r.failure == Some(ProcessClip(st, clips[0], env).error)
            && r.state.fs == st.fs
            && (clips[0].vod.Some? ==> clips[0].vod.value in r.state.cache)
  {
  }

  /** A file with the clip's digest sits at the clip's location. */
  ghost predicate ClipArchived(fs: FileSystem, clip: Clip, env: Env) {
    && ClipPlacement(clip, env).Success?
    && Archived(fs, ClipPlacement(clip, env).value.loc,
                env.md5(ClipPlacement(clip, env).value.content), env.md5)
  }

  /** Every clip of the list has a placement and its digest is archived there. */
  ghost predicate AllArchived(fs: FileSystem, clips: seq<Clip>, env: Env) {
    forall k :: 0 <= k < |clips| ==> ClipArchived(fs, clips[k], env)
  }

  lemma ArchivedKept(fs: FileSystem, after: FileSystem, loc: Location, d: string, md5: Hasher)
    requires Keeps(fs, after) && Archived(fs, loc, d, md5)
    ensures Archived(after, loc, d, md5)
  {
    var j: nat :| VariantPath(loc, j) in fs && md5(fs[VariantPath(loc, j)]) == d;
    assert VariantPath(loc, j) in after;
  }

  /** A run that completes leaves every one of its clips archived. */
  lemma {:induction false} DownloadClipsArchives(st: State, clips: seq<Clip>, env: Env)
    requires Consistent(st.cache, env.vodDate) && ArchiveContiguous(st.fs)
    requires DownloadClips(st, clips, env).failure.None?
    ensures AllArchived(DownloadClips(st, clips, env).state.fs, clips, env)
    decreases |clips|
  {
    if |clips| > 0 {
      var step := ProcessClip(st, clips[0], env);
      assert step.Success?;
      var next := step.value;
      var rest := DownloadClips(next, clips[1..], env);
      assert DownloadClips(st, clips, env) == rest;
      var final := rest.state.fs;
      ProcessClipPlaces(st, clips[0], env);
      ProcessClipPreservesContiguity(st, clips[0], env);
      var p := ClipPlacement(clips[0], env).value;
      PlaceArchives(st.fs, p.loc, p.content, env.md5);
      DownloadClipsArchives(next, clips[1..], env);
      ArchivedKept(next.fs, final, p.loc, env.md5(p.content), env.md5);
      assert ClipArchived(final, clips[0], env);
      forall k | 1 <= k < |clips|
        ensures ClipArchived(final, clips[k], env)
      {
        assert clips[k] == clips[1..][k - 1];
      }
    }
  }

  /** A run over clips that are all archived already completes and changes no file. */
  lemma {:induction false} DownloadClipsIdempotent(st: State, clips: seq<Clip>, env: Env)
    requires Consistent(st.cache, env.vodDate) && ArchiveContiguous(st.fs)
    requires AllArchived(st.fs, clips, env)
    ensures DownloadClips(st, clips, env).failure.None?
    ensures DownloadClips(st, clips, env).state.fs == st.fs
    decreases |clips|
  {
    if |clips| > 0 {
      ProcessClipPlaces(st, clips[0], env);
      var p := ClipPlacement(clips[0], env).value;
      var j: nat :| VariantPath(p.loc, j) in st.fs && env.md5(st.fs[VariantPath(p.loc, j)]) == env.md5(p.content);
      PlaceIdempotent(st.fs, p.loc, p.content, env.md5, j);
      var next := ProcessClip(st, clips[0], env).value;
      assert next.fs == st.fs;
      forall k | 0 <= k < |clips| - 1
        ensures ClipArchived(next.fs, clips[1..][k], env)
      {
        assert clips[1..][k] == clips[k + 1];
      }
      DownloadClipsIdempotent(next, clips[1..], env);
    }
  }

  /** Running the same batch twice: the second run, in the same process or in
      a fresh one, completes and leaves the filesystem as the first left it. */
  lemma RunTwice(st: State, clips: seq<Clip>, env: Env)
    requires Consistent(st.cache, env.vodDate) && ArchiveContiguous(st.fs)
    requires DownloadClips(st, clips, env).failure.None?
    ensures var first := DownloadClips(st, clips, env).state;
            var again := DownloadClips(first, clips, env);
            var restart := DownloadClips(State(first.fs, map[]), clips, env);
            && again.failure.None? && again.state.fs == first.fs
            && restart.failure.None? && restart.state.fs == first.fs
  {
    var first := DownloadClips(st, clips, env).state;
    DownloadClipsArchives(st, clips, env);
    DownloadClipsPreservesContiguity(st, clips, env);
    DownloadClipsKeepsMemoConsistent(st, clips, env);
    DownloadClipsIdempotent(first, clips, env);
    DownloadClipsIdempotent(State(first.fs, map[]), clips, env);
  }
}

=== FILE: filestore.dfy ===
/** The filesystem as the archiver sees it: a finite map from path to file
    contents, `os.path.isfile` as membership, and the MD5 comparison of
    `is_duplicate` (identical in both scripts) with its read failures. */
module FileStore {
  import opened Results

  type Content = seq<bv8>

  type FileSystem = map<string, Content>

  /** `hashlib.md5(contents).hexdigest()`, left uninterpreted. */
  type Hasher = Content -> string

  /** `already_downloaded`: `os.path.isfile(path)`. */
  predicate AlreadyDownloaded(fs: FileSystem, path: string) {
    path in fs
  }

  /** `is_duplicate(a, b)`: the two files have equal digests. Opening a missing
      file raises, and the first path is hashed first. */
  function IsDuplicate(fs: FileSystem, a: string, b: string, md5: Hasher): (r: Result<bool, Error>)
    ensures r.Success? <==> a in fs && b in fs
    ensures r.Failure? ==> r.error == FileNotFound(if a !in fs then a else b)
    ensures r.Success? ==> (r.value <==> md5(fs[a]) == md5(fs[b]))
  {
    if a !in fs then Failure(FileNotFound(a))
    else if b !in fs then Failure(FileNotFound(b))
    else Success(md5(fs[a]) == md5(fs[b]))
  }

  /** Every file of `before` is still in `after` with the same contents. */
  ghost predicate Keeps(before: FileSystem, after: FileSystem) {
    forall p :: p in before ==> p in after && after[p] == before[p]
  }

  /** Some candidate holds a file whose digest is the trial's. */
  ghost predicate HasTwin(fs: FileSystem, candidates: seq<string>, trial: string, md5: Hasher)
    requires trial in fs
  {
    exists k :: 0 <= k < |candidates| && candidates[k] in fs && md5(fs[candidates[k]]) == md5(fs[trial])
  }

  /** The scan `for file_path in candidates: if is_duplicate(file_path, trial):
      … break`, answering whether it broke out on a match. A read failure
      before the first match propagates. */
  function ScanForDuplicate(fs: FileSystem, candidates: seq<string>, trial: string, md5: Hasher)
    : (r: Result<bool, Error>)
    ensures trial in fs && (forall k :: 0 <= k < |candidates| ==> candidates[k] in fs)
            ==> r.Success? && (r.value <==> HasTwin(fs, candidates, trial, md5))
    ensures trial !in fs && |candidates| > 0 ==> r.Failure?
  {
    if |candidates| == 0 then Success(false)
    else
      var same :- IsDuplicate(fs, candidates[0], trial, md5);
      if same then Success(true)
      else
        var rest := ScanForDuplicate(fs, candidates[1..], trial, md5);
        assert trial in fs ==> (HasTwin(fs, candidates[1..], trial, md5) <==> HasTwin(fs, candidates, trial, md5)) by {
          if trial in fs && HasTwin(fs, candidates, trial, md5) {
            var k :| 0 <= k < |candidates| && candidates[k] in fs && md5(fs[candidates[k]]) == md5(fs[trial]);
            assert k != 0;
            assert candidates[1..][k - 1] == candidates[k];
          }
        }
        rest
  }
}

=== FILE: naming.dfy ===
/** File names of archived clips: the sanitised stem of a title and the
    `stem_i.mp4` variant names under a directory, with the parser that inverts
    them (used to show distinct (stem, index) pairs never share a path). */
module Naming {
  import opened Results
  import opened Text

  /** `title.replace(' ', '_')`: only the ASCII space is replaced. */
  function ReplaceSpaces(t: string): (r: string)
    ensures |r| == |t| && ' ' !in r
  {
    seq(|t|, k requires 0 <= k < |t| => if t[k] == ' ' then '_' else t[k])
  }

  /** `re.sub('[^a-zA-Z0-9_]', '', t)`: drop every character outside the class. */
  function RemoveNonWord(t: string): (r: string)
    ensures |r| <= |t|
    ensures forall k :: 0 <= k < |r| ==> IsWordChar(r[k])
  {
    if |t| == 0 then []
    else (if IsWordChar(t[0]) then [t[0]] else []) + RemoveNonWord(t[1..])
  }

  /** The sanitised file stem of a clip title. */
  function Stem(title: string): (r: string)
    ensures forall k :: 0 <= k < |r| ==> IsWordChar(r[k])
    ensures '/' !in r
  {
    RemoveNonWord(ReplaceSpaces(title))
  }

  lemma {:induction false} RemoveNonWordAppend(a: string, b: string)
    ensures RemoveNonWord(a + b) == RemoveNonWord(a) + RemoveNonWord(b)
  {
    if |a| > 0 {
      assert (a + b)[1..] == a[1..] + b;
      RemoveNonWordAppend(a[1..], b);
    } else {
      assert a + b == b;
    }
  }

  lemma {:induction false} RemoveNonWordKeepsWords(t: string)
    requires forall k :: 0 <= k < |t| ==> IsWordChar(t[k])
    ensures RemoveNonWord(t) == t
  {
    if |t| > 0 {
      RemoveNonWordKeepsWords(t[1..]);
    }
  }

  /** The stem is computed character by character, in order: it distributes
      over concatenation, and a single character becomes `_` (a space), itself
      (a word character) or nothing (anything else, tabs and non-ASCII letters
      included). Together these fix `Stem` on every title. */
  lemma StemAppend(a: string, b: string)
    ensures Stem(a + b) == Stem(a) + Stem(b)
  {
    assert ReplaceSpaces(a + b) == ReplaceSpaces(a) + ReplaceSpaces(b);
    RemoveNonWordAppend(ReplaceSpaces(a), ReplaceSpaces(b));
  }

  lemma StemOfChar(c: char)
    ensures Stem([c]) == if c == ' ' then "_" else if IsWordChar(c) then [c] else []
  {
    var r := ReplaceSpaces([c]);
    assert r == [if c == ' ' then '_' else c];
    assert r[1..] == [];
  }

  /** A title made of word characters only is its own stem. */
  lemma StemOfWords(t: string)
    requires forall k :: 0 <= k < |t| ==> IsWordChar(t[k])
    ensures Stem(t) == t
  {
    assert ReplaceSpaces(t) == t;
    RemoveNonWordKeepsWords(t);
  }

  /** Sanitising a stem again changes nothing. */
  lemma StemIdempotent(title: string)
    ensures Stem(Stem(title)) == Stem(title)
  {
    StemOfWords(Stem(title));
  }

  /** `"{}_{}.mp4".format(stem, i)`. A stem without `/` gives a name without
      `/`, so a variant is one file inside its directory; `FileNameRoundTrip`
      and `ParseFileNameSound` show that the name determines stem and index. */
  function FileName(stem: string, i: nat): (r: string)
    ensures '/' !in stem ==> '/' !in r
  {
    stem + "_" + Decimal(i) + ".mp4"
  }

  datatype FileKey = FileKey(stem: string, index: nat)

  /** Reads a variant name back: the stem is everything before the last `_`,
      the index the numeral between it and the `.mp4` extension. */
  function ParseFileName(name: string): Option<FileKey> {
    if |name| < 4 || name[|name| - 4..] != ".mp4" then None
    else
      var body := name[..|name| - 4];
      var k := LastIndexOf(body, '_');
      if k < 0 || !IsNumeral(body[k + 1..]) then None
      else Some(FileKey(body[..k], DigitsValue(body[k + 1..])))
  }

  lemma FileNameRoundTrip(stem: string, i: nat)
    ensures ParseFileName(FileName(stem, i)) == Some(FileKey(stem, i))
  {
    var name := FileName(stem, i);
    var body := name[..|name| - 4];
    assert body == stem + ['_'] + Decimal(i);
    LastIndexOfAfter(stem, '_', Decimal(i));
    assert body[|stem| + 1..] == Decimal(i);
    assert body[..|stem|] == stem;
    DecimalRoundTrip(i);
  }

  lemma {:induction false} LeadingDigitPositive(s: string)
    requires |s| >= 1 && AllDigits(s) && s[0] != '0'
    ensures DigitsValue(s) >= 1
  {
    if |s| > 1 {
      LeadingDigitPositive(s[..|s| - 1]);
    }
  }

  lemma {:induction false} NumeralRoundTrip(s: string)
    requires IsNumeral(s)
    ensures Decimal(DigitsValue(s)) == s
  {
    if |s| > 1 {
      var p := s[..|s| - 1];
      LeadingDigitPositive(p);
      NumeralRoundTrip(p);
      var n := DigitsValue(s);
      assert n / 10 == DigitsValue(p) && n % 10 == DigitValue(s[|s| - 1]);
      assert DigitChar(n % 10) == s[|s| - 1];
    } else {
      assert DigitChar(DigitValue(s[0])) == s[0];
    }
  }

  /** Every name the parser accepts is the variant name of what it returns, so
      `FileName` is a bijection onto the accepted names. */
  lemma ParseFileNameSound(name: string)
    requires ParseFileName(name).Some?
    ensures FileName(ParseFileName(name).value.stem, ParseFileName(name).value.index) == name
  {
    var body := name[..|name| - 4];
    var k := LastIndexOf(body, '_');
    NumeralRoundTrip(body[k + 1..]);
    assert body == body[..k] + "_" + body[k + 1..];
    assert name == body + ".mp4";
  }

  lemma FileNameInjective(s1: string, i: nat, s2: string, j: nat)
    requires FileName(s1, i) == FileName(s2, j)
    ensures s1 == s2 && i == j
  {
    FileNameRoundTrip(s1, i);
    FileNameRoundTrip(s2, j);
  }

  /** A directory (with its trailing `/`) and a stem: every variant of a clip
      lives at `dir + stem_i.mp4` for one location. */
  datatype Location = Location(dir: string, stem: string)

  predicate WellFormed(loc: Location) {
    |loc.dir| > 0 && loc.dir[|loc.dir| - 1] == '/' && '/' !in loc.stem
  }

  /** `full_name_for_clip`: variant `i` of the location, a path that starts
      with the location's directory; `VariantPathsDistinct` shows that for
      well-formed locations the path determines location and index. */
  function VariantPath(loc: Location, i: nat): (r: string)
    ensures |r| > |loc.dir| && r[..|loc.dir|] == loc.dir
  {
    loc.dir + FileName(loc.stem, i)
  }

  lemma VariantPathInjective(loc: Location, i: nat, j: nat)
    requires VariantPath(loc, i) == VariantPath(loc, j)
    ensures i == j
  {
    assert VariantPath(loc, i)[|loc.dir|..] == FileName(loc.stem, i);
    assert VariantPath(loc, j)[|loc.dir|..] == FileName(loc.stem, j);
    FileNameInjective(loc.stem, i, loc.stem, j);
  }

  /** Splits a path after its last `/`. */
  function SplitDir(path: string): (string, string) {
    var k := LastIndexOf(path, '/');
    (path[..k + 1], path[k + 1..])
  }

  lemma SplitDirJoin(dir: string, name: string)
    requires |dir| > 0 && dir[|dir| - 1] == '/' && '/' !in name
    ensures SplitDir(dir + name) == (dir, name)
  {
    var a := dir[..|dir| - 1];
    assert dir + name == a + ['/'] + name;
    LastIndexOfAfter(a, '/', name);
  }

  /** Variants of two well-formed locations coincide only when the location and
      the index both agree: no clip's file can stand in for another's. */
  lemma VariantPathsDistinct(l1: Location, i: nat, l2: Location, j: nat)
    requires WellFormed(l1) && WellFormed(l2)
    requires VariantPath(l1, i) == VariantPath(l2, j)
    ensures l1 == l2 && i == j
  {
    assert '/' !in FileName(l1.stem, i);
    assert '/' !in FileName(l2.stem, j);
    SplitDirJoin(l1.dir, FileName(l1.stem, i));
    SplitDirJoin(l2.dir, FileName(l2.stem, j));
    FileNameInjective(l1.stem, i, l2.stem, j);
  }
}

=== FILE: probe.dfy ===
/** Probing the filesystem for the variants of one location: the first free
    index (`generate_filename(clip, iterate=True)`), the run of existing
    variants (`iterate_filenames`), and the contiguity the archiver keeps. */
module Probe {
  import opened Naming
  import opened FileStore

  /** Indices `0 .. n-1` of `loc` are all present. */
  ghost predicate PresentBelow(fs: FileSystem, loc: Location, n: nat) {
    forall j: nat :: j < n ==> VariantPath(loc, j) in fs
  }

  /** The existing indices of `loc` form a prefix `0 .. k-1`. */
  ghost predicate Contiguous(fs: FileSystem, loc: Location) {
    forall j: nat, k: nat :: k <= j && VariantPath(loc, j) in fs ==> VariantPath(loc, k) in fs
  }

  /** The variant paths `0 .. n-1` of `loc`, as a set. */
  ghost function PrefixPaths(loc: Location, n: nat): set<string> {
    if n == 0 then {} else PrefixPaths(loc, n - 1) + {VariantPath(loc, n - 1)}
  }

  lemma {:induction false} PrefixPathsMembers(loc: Location, n: nat, m: nat)
    ensures VariantPath(loc, m) in PrefixPaths(loc, n) <==> m < n
  {
    if n > 0 {
      PrefixPathsMembers(loc, n - 1, m);
      if VariantPath(loc, m) == VariantPath(loc, n - 1) {
        VariantPathInjective(loc, m, n - 1);
      }
    }
  }

  lemma {:induction false} PrefixPathsSize(loc: Location, n: nat)
    ensures |PrefixPaths(loc, n)| == n
  {
    if n > 0 {
      PrefixPathsSize(loc, n - 1);
      PrefixPathsMembers(loc, n - 1, n - 1);
    }
  }

  lemma {:induction false} PrefixPathsPresent(fs: FileSystem, loc: Location, n: nat)
    requires PresentBelow(fs, loc, n)
    ensures PrefixPaths(loc, n) <= fs.Keys
  {
    if n > 0 {
      PrefixPathsPresent(fs, loc, n - 1);
    }
  }

  /** A finite filesystem holds at most `|fs|` variants of one location, which
      is why probing always reaches a free index. */
  lemma PresentBelowBound(fs: FileSystem, loc: Location, n: nat)
    requires PresentBelow(fs, loc, n)
    ensures n <= |fs.Keys|
  {
    PrefixPathsPresent(fs, loc, n);
    PrefixPathsSize(loc, n);
    var extra := fs.Keys - PrefixPaths(loc, n);
    assert fs.Keys == PrefixPaths(loc, n) + extra;
  }

  /** The `while already_downloaded(name(i)): i += 1` probe started at `i`. */
  function FirstFreeFrom(fs: FileSystem, loc: Location, i: nat): (k: nat)
    requires PresentBelow(fs, loc, i)
    ensures i <= k
    ensures VariantPath(loc, k) !in fs
    ensures PresentBelow(fs, loc, k)
    decreases |fs.Keys| - i
  {
    if VariantPath(loc, i) !in fs then i
    else
      PresentBelowBound(fs, loc, i + 1);
      FirstFreeFrom(fs, loc, i + 1)
  }

  /** The smallest absent index of `loc`. */
  function FirstFree(fs: FileSystem, loc: Location): (k: nat)
    ensures VariantPath(loc, k) !in fs
    ensures PresentBelow(fs, loc, k)
  {
    FirstFreeFrom(fs, loc, 0)
  }

  /** The index `generate_filename` settles on: 0 without `iterate`, otherwise
      the first index whose name is not yet a file. */
  function GenerateIndex(fs: FileSystem, loc: Location, iterate: bool): (i: nat)
    ensures !iterate ==> i == 0
    ensures iterate ==> VariantPath(loc, i) !in fs && PresentBelow(fs, loc, i)
  {
    if iterate then FirstFree(fs, loc) else 0
  }

  /** The first free index is the only absent index with every index below it
      present. */
  lemma FirstFreeUnique(fs: FileSystem, loc: Location, k: nat)
    requires VariantPath(loc, k) !in fs && PresentBelow(fs, loc, k)
    ensures FirstFree(fs, loc) == k
  {
  }

  /** `iterate_filenames` from index `i`: the present variants `i, i+1, …` up
      to the first gap, in increasing index order. */
  function ExistingVariantsFrom(fs: FileSystem, loc: Location, i: nat): (r: seq<string>)
    requires PresentBelow(fs, loc, i)
    ensures forall k :: 0 <= k < |r| ==> r[k] == VariantPath(loc, i + k) && r[k] in fs
    ensures VariantPath(loc, i + |r|) !in fs
    decreases |fs.Keys| - i
  {
    if VariantPath(loc, i) !in fs then []
    else
      PresentBelowBound(fs, loc, i + 1);
      [VariantPath(loc, i)] + ExistingVariantsFrom(fs, loc, i + 1)
  }

  function ExistingVariants(fs: FileSystem, loc: Location): (r: seq<string>)
    ensures forall k :: 0 <= k < |r| ==> r[k] == VariantPath(loc, k) && r[k] in fs
    ensures VariantPath(loc, |r|) !in fs
  {
    ExistingVariantsFrom(fs, loc, 0)
  }

  /** The variants listed are exactly indices `0 .. k-1` for the first free
      index `k`; the list is empty exactly when index 0 is free. */
  lemma ExistingVariantsLength(fs: FileSystem, loc: Location)
    ensures |ExistingVariants(fs, loc)| == FirstFree(fs, loc)
  {
  }

  /** Under contiguity the present indices are exactly those below the first
      free one. */
  lemma ContiguousPresence(fs: FileSystem, loc: Location, j: nat)
    requires Contiguous(fs, loc)
    ensures VariantPath(loc, j) in fs <==> j < FirstFree(fs, loc)
  {
  }
}

=== FILE: results.dfy ===
/** Failure-compatible wrappers shared by the archiver model: `Option` for values
    the Python code may leave as `None`, `Result` for the exceptions it raises. */
module Results {

  datatype Option<+T> = None | Some(value: T)

  datatype Result<+R, +E> = Success(value: R) | Failure(error: E) {

    predicate IsFailure() {
      Failure?
    }

    function PropagateFailure<U>(): Result<U, E>
      requires Failure?
    {
      Failure(error)
    }

    function Extract(): R
      requires Success?
    {
      value
    }
  }

  /** The exceptions the archiver can end a clip (and, uncaught, the run) with. */
  datatype Error =
    | NoPreviewMarker(thumbnail: string)   // `str.index("-preview-")` raises ValueError
    | DateOverflow(day: int)               // `datetime - timedelta` below year 1 raises OverflowError
    | FileNotFound(path: string)           // `open(path, 'rb')` inside the MD5 helper
    | MissingData                          // helix response without a `data` key (KeyError)
    | NoMediaUrl                           // `urlretrieve(None, …)` after an empty `data` list
    | StillThrottled                       // every modelled response was a 429
}

=== FILE: text.dfy ===
/** The string primitives the archiver relies on, each with the meaning Python
    gives it: `str.format` of a non-negative int, `str.rfind`, `str.index`,
    `str.strip`, `str.lower` and the `[a-zA-Z0-9_]` regex class. */
module Text {
  import opened Results

  /** Membership in the regex class `[a-zA-Z0-9_]` (ASCII ranges only). */
  predicate IsWordChar(c: char) {
    ('a' <= c <= 'z') || ('A' <= c <= 'Z') || ('0' <= c <= '9') || c == '_'
  }

  predicate IsDigit(c: char) {
    '0' <= c <= '9'
  }

  predicate AllDigits(s: string) {
    forall k :: 0 <= k < |s| ==> IsDigit(s[k])
  }

  function DigitChar(d: nat): (c: char)
    requires d < 10
    ensures IsDigit(c)
  {
    (('0' as int) + d) as char
  }

  function DigitValue(c: char): (d: nat)
    requires IsDigit(c)
    ensures d < 10
  {
    (c as int) - ('0' as int)
  }

  /** `"{}".format(n)` for a non-negative int: its decimal digits, no leading zero. */
  function Decimal(n: nat): (s: string)
    ensures |s| >= 1
    ensures AllDigits(s)
    ensures s[0] == '0' <==> n == 0
  {
    if n < 10 then [DigitChar(n)] else Decimal(n / 10) + [DigitChar(n % 10)]
  }

  /** The value of a string of decimal digits, most significant first. */
  function DigitsValue(s: string): nat
    requires AllDigits(s)
  {
    if |s| == 0 then 0 else DigitsValue(s[..|s| - 1]) * 10 + DigitValue(s[|s| - 1])
  }

  /** A decimal numeral as `str.format` writes one: non-empty, digits only,
      and no leading zero unless it is "0". */
  predicate IsNumeral(s: string) {
    |s| >= 1 && AllDigits(s) && (|s| > 1 ==> s[0] != '0')
  }

  lemma {:induction false} DecimalRoundTrip(n: nat)
    ensures IsNumeral(Decimal(n))
    ensures DigitsValue(Decimal(n)) == n
  {
    if n >= 10 {
      DecimalRoundTrip(n / 10);
      var s := Decimal(n);
      assert s[..|s| - 1] == Decimal(n / 10);
    }
  }

  lemma DecimalInjective(m: nat, n: nat)
    requires Decimal(m) == Decimal(n)
    ensures m == n
  {
    DecimalRoundTrip(m);
    DecimalRoundTrip(n);
  }

  /** `s.rfind(c)`: the last position holding `c`, or -1 when there is none. */
  function LastIndexOf(s: string, c: char): (k: int)
    ensures -1 <= k < |s|
    ensures k >= 0 ==> s[k] == c
    ensures forall j :: k < j < |s| ==> s[j] != c
  {
    if |s| == 0 then -1
    else if s[|s| - 1] == c then |s| - 1
    else LastIndexOf(s[..|s| - 1], c)
  }

  lemma LastIndexOfAfter(a: string, c: char, b: string)
    requires c !in b
    ensures LastIndexOf(a + [c] + b, c) == |a|
  {
    var s := a + [c] + b;
    var k := LastIndexOf(s, c);
    assert s[|a|] == c;
  }

  predicate MatchesAt(s: string, pat: string, j: nat) {
    j + |pat| <= |s| && s[j..j + |pat|] == pat
  }

  /** `s.index(pat)` without the exception: the first position where `pat`
      occurs, or None where Python raises ValueError. */
  function IndexOf(s: string, pat: string): (r: Option<nat>)
    ensures r.Some? ==> MatchesAt(s, pat, r.value)
    ensures r.Some? ==> forall j: nat :: j < r.value ==> !MatchesAt(s, pat, j)
    ensures r.None? ==> forall j: nat :: !MatchesAt(s, pat, j)
  {
    IndexFrom(s, pat, 0)
  }

  function IndexFrom(s: string, pat: string, i: nat): (r: Option<nat>)
    requires forall j: nat :: j < i ==> !MatchesAt(s, pat, j)
    ensures r.Some? ==> i <= r.value && MatchesAt(s, pat, r.value)
    ensures r.Some? ==> forall j: nat :: j < r.value ==> !MatchesAt(s, pat, j)
    ensures r.None? ==> forall j: nat :: !MatchesAt(s, pat, j)
    decreases |s| - i
  {
    if i + |pat| > |s| then None
    else if s[i..i + |pat|] == pat then Some(i)
    else IndexFrom(s, pat, i + 1)
  }

  /** Python's `str.isspace` for a single character: the Unicode whitespace
      that `str.strip()` removes when called without arguments. */
  predicate IsSpace(c: char) {
    ('\U{9}' <= c <= '\U{D}') || ('\U{1C}' <= c <= '\U{20}')
    || c == '\U{85}' || c == '\U{A0}' || c == '\U{1680}'
    || ('\U{2000}' <= c <= '\U{200A}') || c == '\U{2028}' || c == '\U{2029}'
    || c == '\U{202F}' || c == '\U{205F}' || c == '\U{3000}'
  }

  /** The first position at or after `i` that is not whitespace, or `|s|`. */
  function SkipSpace(s: string, i: nat): (n: nat)
    requires i <= |s|
    ensures i <= n <= |s|
    ensures forall k :: i <= k < n ==> IsSpace(s[k])
    ensures n < |s| ==> !IsSpace(s[n])
    decreases |s| - i
  {
    if i < |s| && IsSpace(s[i]) then SkipSpace(s, i + 1) else i
  }

  /** The end of `s[lo..hi]` once its trailing whitespace is dropped. */
  function SkipSpaceBack(s: string, lo: nat, hi: nat): (n: nat)
    requires lo <= hi <= |s|
    ensures lo <= n <= hi
    ensures forall k :: n <= k < hi ==> IsSpace(s[k])
    ensures n > lo ==> !IsSpace(s[n - 1])
    decreases hi
  {
    if hi > lo && IsSpace(s[hi - 1]) then SkipSpaceBack(s, lo, hi - 1) else hi
  }

  /** The number of whitespace characters `s.lstrip()` removes. */
  function LeadingSpace(s: string): (n: nat)
    ensures n <= |s|
    ensures forall k :: 0 <= k < n ==> IsSpace(s[k])
    ensures n < |s| ==> !IsSpace(s[n])
  {
    SkipSpace(s, 0)
  }

  /** `s.strip()`: `s` without its leading and trailing whitespace. */
  function Strip(s: string): (r: string)
    ensures LeadingSpace(s) + |r| <= |s|
    ensures r == s[LeadingSpace(s)..LeadingSpace(s) + |r|]
    ensures forall k :: LeadingSpace(s) + |r| <= k < |s| ==> IsSpace(s[k])
    ensures r == [] || (!IsSpace(r[0]) && !IsSpace(r[|r| - 1]))
  {
    var a := LeadingSpace(s);
    s[a..SkipSpaceBack(s, a, |s|)]
  }

  function LowerChar(c: char): (l: char)
    ensures !('A' <= l <= 'Z')
  {
    if 'A' <= c <= 'Z' then ((c as int) + 32) as char else c
  }

  /** `s.lower()` restricted to ASCII letters. */
  function Lower(s: string): (r: string)
    ensures |r| == |s|
    ensures forall k :: 0 <= k < |r| ==> !('A' <= r[k] <= 'Z')
    ensures forall k :: 0 <= k < |s| && !('A' <= s[k] <= 'Z') ==> r[k] == s[k]
    ensures forall k :: 0 <= k < |s| && 'A' <= s[k] <= 'Z' ==> r[k] as int == s[k] as int + 32
  {
    seq(|s|, k requires 0 <= k < |s| => LowerChar(s[k]))
  }
}

=== FILE: vodcache.dfy ===
/** `vod_created_date`: the creation date of a clip's parent video, memoised per
    vod id for the run, with the 1980-01-01 fallback for clips without one. */
module VodCache {
  import opened Results
  import opened Calendar

  /** The memo `vod_infos`: vod id to creation date. */
  type Cache = map<string, Ordinal>

  /** `client.videos.get_by_id(id)['created_at']`, a catalog query. */
  type VodLookup = string -> Ordinal

  /** `datetime.datetime(1980, 1, 1)`, day 722815. */
  const Sentinel: Ordinal := 722815

  /** The date, the memo after the call, and whether the catalog was queried. */
  datatype Resolution = Resolution(date: Ordinal, cache: Cache, lookedUp: bool)

  function VodCreatedDate(cache: Cache, vod: Option<string>, lookup: VodLookup): (r: Resolution)
    ensures vod.None? ==> r.date == Sentinel && r.cache == cache && !r.lookedUp
    ensures vod.Some? ==> vod.value in r.cache && r.cache[vod.value] == r.date
    ensures r.lookedUp <==> vod.Some? && vod.value !in cache
    ensures r.lookedUp ==> r.date == lookup(vod.value)
    ensures !r.lookedUp ==> r.cache == cache
    ensures forall v :: v in cache ==> v in r.cache && r.cache[v] == cache[v]
    ensures r.cache.Keys == cache.Keys + (if vod.Some? then {vod.value} else {})
  {
    match vod
    case None => Resolution(Sentinel, cache, false)
    case Some(id) =>
      if id in cache then Resolution(cache[id], cache, false)
      else
        var created := lookup(id);
        Resolution(created, cache[id := created], true)
  }

  /** Every memoised date is the catalog's answer for its vod. */
  ghost predicate Consistent(cache: Cache, lookup: VodLookup) {
    forall v :: v in cache ==> cache[v] == lookup(v)
  }

  /** The date a clip is filed under, independent of any memo. */
  function EffectiveDate(vod: Option<string>, lookup: VodLookup): Ordinal {
    match vod
    case None => Sentinel
    case Some(id) => lookup(id)
  }

  /** With a consistent memo the answer is the effective date, memo or not,
      and the memo stays consistent. */
  lemma VodCreatedDateConsistent(cache: Cache, vod: Option<string>, lookup: VodLookup)
    requires Consistent(cache, lookup)
    ensures VodCreatedDate(cache, vod, lookup).date == EffectiveDate(vod, lookup)
    ensures Consistent(VodCreatedDate(cache, vod, lookup).cache, lookup)
  {
  }

  /** Asking again for the same clip is a hit: same date, memo unchanged, no query. */
  lemma VodCreatedDateStable(cache: Cache, vod: Option<string>, lookup: VodLookup)
    ensures var r1 := VodCreatedDate(cache, vod, lookup);
            var r2 := VodCreatedDate(r1.cache, vod, lookup);
            !r2.lookedUp && r2.date == r1.date && r2.cache == r1.cache
  {
  }
}
